=== FILE: README.md ===
# obsidian-tagger: the tag-handling core in Dafny

`obsidian-tagger` adds tags to one note of an Obsidian vault. It reads the note's
YAML front matter (the block between a leading `---` and the next `---`), gathers
every tag used anywhere in the vault, asks a language model for more tags, merges
them with the note's own tags and writes the block back. This project models the
pure part of that pipeline in `main.py`:

- **front matter boundaries and parsing** (`parse_frontmatter`): `Frontmatter.SplitDocument`, `Frontmatter.ParseFrontmatter`;
- **rewriting the `tags` entry** (`update_frontmatter_tags`): `Frontmatter.UpdateTags`;
- **the vault vocabulary** (the fold of `get_all_vault_tags`): `Vocabulary.VaultTags`, `Vocabulary.CollectVaultTags`;
- **checking the model's reply** (the shape checks of `suggest_tags`): `Suggestions.ValidateReply`;
- **merge and report** (`add_tags`): `Tagger.CurrentTags`, `Tagger.MergeTags`, `Tagger.AddedTags`, `Tagger.AddTags`.

Python strings are `seq<char>` (module `Text`), and Python's `<` on strings is
`Ordering.Less`, a lexicographic order by code point proved to be a strict total
order. `sorted(set(xs))` is `Ordering.SortUnique`. It is proved to give the one
strictly increasing listing of the set (`Ordering.StrictlyIncreasingUnique`).
The objects that `yaml.safe_load` and `json.loads` return are `Values.Value`:
`Null`, `Str`, `List`, a string-keyed `Map`, and `Other` for every other scalar.
An `Other` value is known only by its truth value.

The foreign libraries enter as function-valued parameters:

- `yaml.safe_load` and `yaml.dump` are the fields of `Frontmatter.Yaml`. `None` means the call raised.
- `json.loads` is `loadJson`.
- Python's `repr` of a list, used in the header for notes without front matter, is `render`.
- The files of the vault arrive as a list of `Vocabulary.FileRead` outcomes.
- The service's reply arrives as a list of `Suggestions.Segment`s.

In several places the code does something other than its own comments and
type annotations suggest: the comment "the second '---'" (main.py:21), the
`-> dict` of `parse_frontmatter` (main.py:15) and the `set[str]` of
`get_all_vault_tags` (main.py:28). The model follows what the code does:

- **When the block closes.** It closes at the first `---` at index 3 or later, not at a marker *line*. A `------` opening rule or a `---` inside a YAML value closes it (`Frontmatter.LongRuleClosesAtOnce`, `Frontmatter.DelimiterInValueCloses`).
- **The body.** It starts four characters after the closing `---`, so one character is dropped whatever it is (`Frontmatter.BodyDropsOneCharacter`).
- **What parsing returns.** `parse_frontmatter` returns any truthy loaded value, not only a mapping. `add_tags` then fails at `.get` (`Tagger.Failure.MetadataNotDict`).
- **A note that fails during the vocabulary scan still contributes.** `set.update` adds the elements of a `tags` list that come before the first list or dict in it, and only then raises (`Vocabulary.UnhashableCutsListShort`).
- **Non-string tags in the vocabulary.** Numbers and nulls inside a `tags` list enter the vocabulary. Building the prompt then fails on them (`Tagger.Failure.CannotBuildPrompt`).

## Model

| member | source | states |
|---|---|---|
| Text.FindFrom | main.py:22 | the result is the first index at or after the start where the pattern occurs, and `None` exactly when it occurs nowhere from there on |
| Text.FindInSuffix | main.py:22 | searching `s[k:]` and adding `k` finds the first occurrence in `s` at index `k` or later, and fails exactly when there is none |
| Text.Suffix | main.py:138 | Python's `s[k:]`: empty when `k` is past the end, otherwise `s` is the prefix followed by the result |
| Ordering.LessIsLexicographic | main.py:134 | the string order used by `sorted` holds exactly when `a` is a proper prefix of `b` or has the smaller code point at the first difference |
| Ordering.LessIrreflexive | main.py:134 | no string is smaller than itself under Python's string order |
| Ordering.LessAsymmetric | main.py:134 | two strings are never each smaller than the other |
| Ordering.LessTransitive | main.py:134 | Python's string order is transitive |
| Ordering.LessTotal | main.py:134 | any two distinct strings are ordered one way or the other |
| Ordering.Insert | main.py:134 | inserting into a sorted duplicate-free list keeps it sorted and duplicate-free and adds exactly the new element |
| Ordering.SortUnique | main.py:134 | `sorted(set(xs))` is strictly increasing and holds exactly the elements of `xs` |
| Ordering.StrictlyIncreasingUnique | main.py:165 | two strictly increasing lists with the same elements are equal, so `sorted(set(…))` depends only on the set |
| Ordering.SortUniqueOfSorted | main.py:134 | `sorted(set(xs))` of an already sorted duplicate-free list is that list |
| Values.StringItems | main.py:113 | succeeds exactly when every list item is a `str`, and then lists those strings in order |
| Values.TagListRoundTrip | main.py:134 | reading the strings back out of a list of strings gives the original strings |
| Values.StringItemsRoundTrip | main.py:113 | a list whose items all are strings is the list built from those strings |
| Frontmatter.SplitDocument | main.py:17-22 | no block exactly when the text does not start with `---`; otherwise the block closes at the first `---` at index 3 or later, its text is `content[3:end]` and the body is `content[end+4:]` |
| Frontmatter.LoadOrEmpty | main.py:131 | `safe_load(…) or {}`: fails exactly when the loader raises; a truthy loaded value is kept and a false one (`None`, `""`, `[]`, `0`) becomes `{}` |
| Frontmatter.ParseFrontmatter | main.py:15-26 | `{}` without a leading `---`, without a closing one, on a loader error or on a false value; otherwise the truthy value the block loads to |
| Frontmatter.SetTags | main.py:134 | fails exactly when the metadata is not a dict; otherwise `tags` holds the sorted duplicate-free new tags and every other key keeps its value |
| Frontmatter.NewMetadataOfSorted | main.py:131-134 | for tags already sorted and duplicate-free, the new `tags` value is exactly those tags |
| Frontmatter.UpdateTags | main.py:118-142 | no block: a fixed header then the original text verbatim; unclosed block, loader error, non-dict metadata or dump error: the input unchanged; otherwise `---\n`, the dumped metadata, `---\n` and the original body; the body is a suffix of the output in every case |
| Frontmatter.BodyDropsOneCharacter | main.py:138 | the text is the part before the closing `---`, the `---`, exactly one dropped character and the body; or the body is empty when `---` ends the text |
| Frontmatter.LongRuleClosesAtOnce | main.py:22 | a text starting with `------` has a block that closes at index 3 and is empty |
| Frontmatter.DelimiterInValueCloses | main.py:130 | a `---` inside a YAML value closes the block there and the character after it is lost |
| Frontmatter.ExampleNoteSplits | main.py:17-23 | `---\ntags: foo\n---\nbody text` splits into block `\ntags: foo\n` and body `body text` |
| Frontmatter.SplitRewritten | main.py:130-138 | a block written as `---\n<dump>---\n<body>`, with no other `---` in the dump, splits back into `\n<dump>` and the same body |
| Frontmatter.UpdateThenParse | main.py:128-138 | if the YAML library reads back what it dumped, parsing the rewritten note gives the new metadata: sorted tags, other keys unchanged, body unchanged |
| Frontmatter.UpdateIdempotent | main.py:128-138 | under the same condition, rewriting a rewritten note with the same tags changes nothing |
| Vocabulary.HashablePrefix | main.py:42-45 | `set.update` adds the longest prefix of hashable elements, and stops only before an unhashable one |
| Vocabulary.TagsContribution | main.py:37-43 | only a dict with a string or list `tags` value contributes; a list contributes only its own elements; everything contributed is hashable |
| Vocabulary.FileContribution | main.py:33-45 | only a readable note with a closed block can contribute, and only hashable values |
| Vocabulary.VaultTags | main.py:28-47 | a value is in the vocabulary exactly when some note contributes it |
| Vocabulary.MissingTagsContributeNothing | main.py:37 | metadata without a `tags` key contributes nothing |
| Vocabulary.OtherTagValuesContributeNothing | main.py:40-43 | a `tags` value that is neither a string nor a list contributes nothing |
| Vocabulary.Union | main.py:30-47 | a value is in the union exactly when one of the per-note sets holds it |
| Vocabulary.CollectVaultTags | main.py:28-47 | the loop over the notes gathers exactly the vault vocabulary |
| Vocabulary.VaultTagsOrderIndependent | main.py:32 | the vocabulary is the same for any order of visiting the notes |
| Vocabulary.SkippedNoteChangesNothing | main.py:44-45 | a note that contributes nothing, such as an unreadable one, neither stops the scan nor changes its result |
| Vocabulary.StringTagContributesItself | main.py:40-41 | a string `tags` value contributes exactly that string |
| Vocabulary.StringListContributesAll | main.py:42-43 | a list of strings contributes exactly its strings |
| Vocabulary.NotesWithoutBlockContributeNothing | main.py:33-37 | an unreadable note or one without a closed block contributes nothing |
| Vocabulary.UnhashableCutsListShort | main.py:42-45 | in a `tags` list holding a dict, only the elements before the dict are added |
| Suggestions.ValidateReply | main.py:103-116 | accepted exactly when there is one segment, of type `text`, whose JSON is a list of strings, and then the result is that list; each rejection matches the check that fails first |
| Suggestions.NonStringListRejected | main.py:113-114 | a reply whose JSON is an object, or a list holding a number, is refused |
| Tagger.CurrentTags | main.py:153-155 | missing `tags` gives `[]`, a string gives a one-element list, a list of strings gives itself; a dict fails at concatenation; a null, a number or a list holding a non-string fails when the prompt joins it (main.py:63) |
| Tagger.MergeTags | main.py:165 | the merged list is strictly increasing and holds exactly the current and the suggested tags |
| Tagger.AddTags | main.py:144-179 | succeeds exactly for dict metadata, a string vocabulary, string current tags and an accepted reply, and then reports `new − current` and writes the note rewritten with the merged tags; otherwise fails with the reason the code meets first: `.get` on a non-dict, the prompt's joins, the reply check, then the list concatenation |
| Tagger.MergeIsCanonical | main.py:165 | any strictly increasing listing of current ∪ suggested is the merged list |
| Tagger.AddedTags | main.py:175 | the reported tags are suggested and not current, and every suggestion is either reported or already current |
| Tagger.AddedIsWhatMergeAdds | main.py:175 | the reported added tags are the merged tags that were not current, whether or not the rewrite reaches the file |
| Tagger.UnclosedBlockReportsUnwritten | main.py:138-142 | a note whose block never closes is written back unchanged, yet every suggestion is reported as added |
| Tagger.MergeNothingNew | main.py:165-175 | merging suggestions already present, in particular none, into a merged list leaves it unchanged and reports nothing added |
| Tagger.MergeIdempotent | main.py:165 | merging the same suggestions a second time gives the same list |
| Tagger.MergeExample | main.py:165-175 | current `foo` with suggestions `bar` and `baz` merges to `[bar, baz, foo]` and reports `{bar, baz}` |
| Tagger.RewrittenTagsReadBack | main.py:153-155 | for a note with a closed block, when the YAML library reads back its own dump and the dump holds no `---`, the note rewritten with sorted tags reads back, through `.get('tags')`, as exactly those tags |
| Tagger.SecondRunChangesNothing | main.py:144-175 | for a note that already had a closed block, and under the same two YAML conditions, running again on the written note with an empty suggestion list, against a vault scanned afresh that now holds the written note, writes the same text and reports nothing added |
| Tagger.HeaderReadsBack | main.py:17-26 | for sorted, duplicate-free tags, when the YAML library reads the `repr`-rendered `tags:` line back as those tags and the rendering holds no `---`, a note with a fresh header reads back as exactly the header's tags; when the dump also succeeds, rewriting it with those tags puts the dumped metadata in front of one newline and the old note |
| Tagger.RescanKeepsStrings | main.py:32-43 | when the rewritten note's `tags` read back as a list of strings, a rescan still finds only string tags, so the next prompt can be built |
| Tagger.SplitHeader | main.py:126 | the header written in front of a block-less note, with no `---` in the rendered tags, splits into the `tags:` line and the old note behind one newline |
| Tagger.SecondRunOnHeaderedNote | main.py:124-175 | for a note that had no block, when the YAML library reads the header's `tags:` line as the merged list, a second run with no suggestions, against a vault scanned afresh that now holds the written note, reports nothing added and rewrites the header as the dumped metadata holding the same tags, in front of one newline and the old note |
| Tagger.RejectedReplyWritesNothing | main.py:162-172 | a rejected reply ends the run with that rejection, before anything is written |
| Tagger.ExampleNoteParses | main.py:152-153 | the example note's metadata reads as `{tags: foo}` |
| Tagger.ExampleNoteRewrites | main.py:168 | the example note rewritten with sorted tags is `---\n`, the dump, `---\n` and `body text` |
| Tagger.EndToEndExample | main.py:144-175 | the example note with suggestions `bar` and `baz`: the block gets `[bar, baz, foo]`, the body is kept, and `{bar, baz}` is reported |

## Left out

- The language-model call (main.py:93-100) is a network service. Its reply is an input to `Suggestions.ValidateReply` and `Tagger.AddTags`.
- `yaml.safe_load`, `yaml.dump`, `json.loads` and Python's list `repr` are foreign code. They are function parameters with no assumed behaviour.
- Reading, walking and writing files (main.py:32-35, 148-149, 171-172) is I/O. Each vault note is a `FileRead`, and the written text is the `updated` field of the report.
- `create_tag_generation_prompt` (main.py:49-76) is a fixed string template and is not modelled. Only its two joins are kept (main.py:62-63). They raise on a non-string tag, and `Tagger.AddTags` fails in that case.
- The title derived from the file name (main.py:161) only feeds the prompt, so it is not modelled.
- `main()`, the argument and environment handling, the `input()` pause and every `print` (main.py:182-201) are command-line plumbing.
- Frontmatter.ParseFrontmatter: YAML mappings are modelled with string keys only, and without key order. `yaml.dump(…, sort_keys=False)` keeps insertion order; the model says nothing about it.
- Frontmatter.UpdateThenParse: holds only when `yaml.safe_load` reads back what `yaml.dump` produced and the dump contains no `---` of its own. The model assumes nothing about the YAML library, so both are preconditions.
- Frontmatter.UpdateIdempotent: needs the same two YAML preconditions as `UpdateThenParse`.
- Tagger.SecondRunChangesNothing: needs the same two YAML preconditions as `UpdateThenParse`, and holds only for notes that already had a closed block. A block-less note gets a new header on the first run, and the second run replaces it, so the text changes. `Tagger.SecondRunOnHeaderedNote` states what that second run does. Both lemmas assume no note other than the target changes between the two runs.
- Tagger.RewrittenTagsReadBack: needs the same two YAML preconditions as `UpdateThenParse`, and a note with a closed block.
- Tagger.SecondRunOnHeaderedNote: holds only when the YAML library reads the header's `tags:` line, rendered by Python's `repr`, as the merged tag list, and the rendering contains no `---`.
- Tagger.HeaderReadsBack: holds only when the YAML library reads the header's `tags:` line, rendered by Python's `repr`, back as the tags, and the rendering contains no `---`. A tag holding a backslash or a tab is written with `repr`'s escapes, which a single-quoted YAML scalar does not undo, and a tag holding `---` closes the block early. The rewrite clause further needs `yaml.dump` to succeed.
- Tagger.AddTags: all failures that come from sorting or joining a non-string tag are one kind of failure. Python raises different `TypeError`s for them.
- Tagger.AddTags: numbers and booleans are all `Other`, so Python's equality between distinct numbers (and between `1` and `True`) is not modelled. A non-string in the vocabulary makes the run fail whatever its value.
- Vocabulary.VaultTags: `rglob`'s traversal order is not modelled. The notes come as a list in any order, and the result does not depend on it (`Vocabulary.VaultTagsOrderIndependent`).

=== FILE: frontmatter.dfy ===
/** The metadata block at the head of a note: finding its boundaries, reading it
    (`parse_frontmatter`) and rewriting its `tags` entry (`update_frontmatter_tags`).
    The YAML library itself is foreign and enters as a pair of functions. */
module Frontmatter {
  import opened Wrappers
  import opened Text
  import opened Ordering
  import opened Values

  /** `yaml.safe_load` (`None` where it raises) and `yaml.dump` of a dict
      (`None` where it raises). */
  datatype Yaml = Yaml(load: String -> Option<Value>, dump: map<String, Value> -> Option<String>)

  const Delimiter: String := "---"
  const TagsKey: String := "tags"

  /** How a document divides around its metadata block. */
  datatype Split =
    | NoBlock                                     // does not start with the delimiter
    | Unclosed                                    // starts with it, but no closing delimiter
    | Block(yaml: String, end: nat, body: String) // block text, closing index, text after it

  /** `content[3:].index('---') + 3`, `None` where `index` raises. */
  function ClosingIndex(content: String): Option<nat>
    requires StartsWith(content, Delimiter)
  {
    match Find(content[3..], Delimiter)
    case None => None
    case Some(i) => Some(i + 3)
  }

  /** The block closes at the first delimiter at index 3 or later, even one that
      overlaps a longer opening rule or sits inside a YAML value; the block text
      runs from index 3 up to it, and the body starts four characters after it. */
  function SplitDocument(content: String): (r: Split)
    ensures r.NoBlock? <==> !StartsWith(content, Delimiter)
    ensures r.Unclosed? ==> forall j: nat :: 3 <= j ==> !OccursAt(content, Delimiter, j)
    ensures r.Block? ==> 3 <= r.end && OccursAt(content, Delimiter, r.end)
    ensures r.Block? ==> forall j: nat :: 3 <= j < r.end ==> !OccursAt(content, Delimiter, j)
    ensures r.Block? ==> r.yaml == content[3..r.end]
    ensures r.Block? ==> r.body == Suffix(content, r.end + 4)
  {
    if !StartsWith(content, Delimiter) then NoBlock
    else
      FindInSuffix(content, Delimiter, 3);
      match ClosingIndex(content)
      case None => Unclosed
      case Some(e) => Block(content[3..e], e, Suffix(content, e + 4))
  }

  /** `yaml.safe_load(text) or {}`; `None` where the loader raises. */
  function LoadOrEmpty(yaml: Yaml, text: String): (r: Option<Value>)
    ensures r.None? <==> yaml.load(text).None?
    ensures r.Some? ==> Truthy(r.value) || r.value == EmptyMap
    ensures r.Some? && Truthy(yaml.load(text).value) ==> r.value == yaml.load(text).value
    ensures r.Some? && !Truthy(yaml.load(text).value) ==> r.value == EmptyMap
  {
    match yaml.load(text)
    case None => None
    case Some(v) => Some(if Truthy(v) then v else EmptyMap)
  }

  /** `parse_frontmatter`: the loaded block, or `{}` when there is no block, the
      block is unclosed, the loader raises or the block loads to a false value. */
  function ParseFrontmatter(yaml: Yaml, content: String): (r: Value)
    ensures !StartsWith(content, Delimiter) ==> r == EmptyMap
    ensures SplitDocument(content).Unclosed? ==> r == EmptyMap
    ensures Truthy(r) || r == EmptyMap
    ensures r != EmptyMap ==>
      SplitDocument(content).Block? && yaml.load(SplitDocument(content).yaml) == Some(r)
    ensures SplitDocument(content).Block? && yaml.load(SplitDocument(content).yaml).Some?
            && Truthy(yaml.load(SplitDocument(content).yaml).value)
            ==> r == yaml.load(SplitDocument(content).yaml).value
  {
    match SplitDocument(content)
    case Block(text, _, _) =>
      (match LoadOrEmpty(yaml, text)
       case None => EmptyMap
       case Some(v) => v)
    case _ => EmptyMap
  }

  /** `meta['tags'] = sorted(set(tags))`; `None` where the item assignment raises
      because the loaded metadata is not a dict. */
  function SetTags(meta: Value, tags: seq<String>): (r: Option<map<String, Value>>)
    ensures r.Some? <==> meta.Map?
    ensures r.Some? ==> r.value.Keys == meta.entries.Keys + {TagsKey}
    ensures r.Some? ==> forall k :: k in meta.entries && k != TagsKey ==> r.value[k] == meta.entries[k]
    ensures r.Some? ==> r.value[TagsKey].List?
    ensures r.Some? ==>
      var ts := StringItems(r.value[TagsKey].items);
      ts.Some? && StrictlyIncreasing(ts.value) && Elems(ts.value) == Elems(tags)
  {
    if meta.Map? then
      var sorted := SortUnique(tags);
      TagListRoundTrip(sorted);
      Some(meta.entries[TagsKey := TagList(sorted)])
    else None
  }

  /** The dict handed to `yaml.dump` when the block text loads and can take the new tags. */
  function NewMetadata(yaml: Yaml, text: String, tags: seq<String>): Option<map<String, Value>> {
    match LoadOrEmpty(yaml, text)
    case None => None
    case Some(meta) => SetTags(meta, tags)
  }

  /** Rewriting loaded metadata with tags that are already sorted and free of
      duplicates stores exactly those tags. */
  lemma NewMetadataOfSorted(yaml: Yaml, text: String, tags: seq<String>)
    requires StrictlyIncreasing(tags)
    requires LoadOrEmpty(yaml, text).Some? && LoadOrEmpty(yaml, text).value.Map?
    ensures NewMetadata(yaml, text, tags) == Some(LoadOrEmpty(yaml, text).value.entries[TagsKey := TagList(tags)])
  {
    SortUniqueOfSorted(tags);
  }

  /** The header `update_frontmatter_tags` writes in front of a note that has no
      metadata block; `rendered` is Python's rendering of the tag list. */
  function NewHeader(rendered: String): String {
    "---\ntags: " + rendered + "\n---\n\n"
  }

  /** `update_frontmatter_tags`; `render` is Python's `repr` of a list of strings. */
  function UpdateTags(yaml: Yaml, render: seq<String> -> String, content: String, tags: seq<String>): (r: String)
    ensures !StartsWith(content, Delimiter) ==>
      EndsWith(r, content) && r[..|r| - |content|] == NewHeader(render(tags))
    ensures SplitDocument(content).Unclosed? ==> r == content
    ensures SplitDocument(content).Block? ==> EndsWith(r, SplitDocument(content).body)
    ensures SplitDocument(content).Block? && NewMetadata(yaml, SplitDocument(content).yaml, tags).None?
            ==> r == content
    ensures SplitDocument(content).Block? && NewMetadata(yaml, SplitDocument(content).yaml, tags).Some?
            ==> var m := NewMetadata(yaml, SplitDocument(content).yaml, tags).value;
                r == (match yaml.dump(m)
                      case None => content
                      case Some(text) => "---\n" + text + "---\n" + SplitDocument(content).body)
  {
    match SplitDocument(content)
    case NoBlock => NewHeader(render(tags)) + content
    case Unclosed => content
    case Block(text, _, body) =>
      match NewMetadata(yaml, text, tags)
      case None => content
      case Some(m) =>
        match yaml.dump(m)
        case None => content
        case Some(dumped) => "---\n" + dumped + "---\n" + body
  }

  /** The `+ 4` skips the delimiter and exactly one more character, whatever it
      is; when the delimiter ends the document the body is empty. */
  lemma BodyDropsOneCharacter(content: String)
    requires SplitDocument(content).Block?
    ensures var sp := SplitDocument(content);
      sp.end + 4 <= |content| ==>
        content == content[..sp.end] + Delimiter + [content[sp.end + 3]] + sp.body
    ensures var sp := SplitDocument(content);
      sp.end + 4 > |content| ==> sp.body == []
  {
    var sp := SplitDocument(content);
    if sp.end + 4 <= |content| {
      assert content == content[..sp.end] + content[sp.end..sp.end + 3] + [content[sp.end + 3]] + content[sp.end + 4..];
    }
  }

  /** A longer opening rule such as `------` closes the block at once: the
      delimiter at index 3 is part of the rule itself, and the block is empty. */
  lemma LongRuleClosesAtOnce(content: String)
    requires StartsWith(content, "------")
    ensures SplitDocument(content).Block?
    ensures SplitDocument(content).end == 3 && SplitDocument(content).yaml == []
  {
    assert content[3..6] == Delimiter by {
      assert content[..6] == "------";
    }
    assert StartsWith(content, Delimiter) by {
      assert content[..3] == content[..6][..3];
    }
    assert OccursAt(content, Delimiter, 3);
  }

  /** A delimiter inside a YAML value closes the block there, and the character
      after it is lost. */
  lemma DelimiterInValueCloses()
    ensures var sp := SplitDocument("---\ntitle: a---b\n---\nbody");
      sp == Block("\ntitle: a", 12, "\n---\nbody")
  {
    var y: String := "\ntitle: a";
    var c: String := Delimiter + y + Delimiter + "b\n---\nbody";
    assert c == "---\ntitle: a---b\n---\nbody";
    assert StartsWith(c, Delimiter);
    assert c[3..12] == y;
    assert OccursAt(c, Delimiter, 12);
    assert forall i :: 0 <= i < |y| ==> y[i] != '-';
    forall j: nat | 3 <= j < 12 ensures !OccursAt(c, Delimiter, j) {
      assert c[j] == y[j - 3];
      assert c[j..j + 3][0] == c[j];
    }
    assert c[16..] == "\n---\nbody";
  }

  /** The example note's block is `\ntags: foo\n` and its body `body text`. */
  lemma ExampleNoteSplits()
    ensures SplitDocument("---\ntags: foo\n---\nbody text") == Block("\ntags: foo\n", 14, "body text")
  {
    var y: String := "\ntags: foo\n";
    var c: String := Delimiter + y + Delimiter + "\nbody text";
    assert c == "---\ntags: foo\n---\nbody text";
    assert StartsWith(c, Delimiter);
    assert c[3..14] == y;
    assert OccursAt(c, Delimiter, 14);
    assert forall i :: 0 <= i < |y| ==> y[i] != '-';
    forall j: nat | 3 <= j < 14 ensures !OccursAt(c, Delimiter, j) {
      assert c[j] == y[j - 3];
      assert c[j..j + 3][0] == c[j];
    }
    assert c[18..] == "body text";
  }

  /** The text `yaml.dump` produced contains no delimiter of its own, so that once
      written between two delimiters the first one found from index 3 is the closing one. */
  predicate ClosesCleanly(dumped: String) {
    forall j: nat :: j <= |dumped| ==> !OccursAt("\n" + dumped + Delimiter, Delimiter, j)
  }

  /** A block written as `---\n<dumped>---\n<body>` splits back into `\n<dumped>` and `<body>`. */
  lemma {:induction false} SplitRewritten(dumped: String, body: String)
    requires ClosesCleanly(dumped)
    ensures SplitDocument("---\n" + dumped + "---\n" + body) == Block("\n" + dumped, |dumped| + 4, body)
  {
    var r := "---\n" + dumped + "---\n" + body;
    var h := "\n" + dumped + Delimiter;
    assert r == Delimiter + h + "\n" + body;
    assert StartsWith(r, Delimiter) by { assert r[..3] == Delimiter; }
    assert r[3..3 + |h|] == h;
    forall j: nat | 3 <= j < |dumped| + 4
      ensures !OccursAt(r, Delimiter, j)
    {
      assert r[j..j + 3] == h[j - 3..j];
      assert !OccursAt(h, Delimiter, j - 3);
    }
    assert OccursAt(r, Delimiter, |dumped| + 4) by {
      assert r[|dumped| + 4..|dumped| + 7] == h[|dumped| + 1..|dumped| + 4];
    }
    assert r[3..|dumped| + 4] == "\n" + dumped;
    assert r[|dumped| + 8..] == body;
  }

  /** When `yaml.dump` and `yaml.safe_load` agree on the rewritten metadata and the
      dumped text holds no stray delimiter, reading the rewritten note gives back
      exactly that metadata (new sorted tags, every other key as before) and the same body. */
  lemma {:induction false} UpdateThenParse(yaml: Yaml, render: seq<String> -> String, content: String, tags: seq<String>)
    requires SplitDocument(content).Block?
    requires NewMetadata(yaml, SplitDocument(content).yaml, tags).Some?
    requires var m := NewMetadata(yaml, SplitDocument(content).yaml, tags).value;
      yaml.dump(m).Some? && ClosesCleanly(yaml.dump(m).value)
      && yaml.load("\n" + yaml.dump(m).value) == Some(Map(m))
    ensures var m := NewMetadata(yaml, SplitDocument(content).yaml, tags).value;
      ParseFrontmatter(yaml, UpdateTags(yaml, render, content, tags)) == Map(m)
    ensures SplitDocument(UpdateTags(yaml, render, content, tags)).Block?
    ensures SplitDocument(UpdateTags(yaml, render, content, tags)).body == SplitDocument(content).body
  {
    var m := NewMetadata(yaml, SplitDocument(content).yaml, tags).value;
    var dumped := yaml.dump(m).value;
    SplitRewritten(dumped, SplitDocument(content).body);
    assert TagsKey in m;
    assert Truthy(Map(m)) by {
      assert m.Keys != {};
      assert |m| > 0;
    }
  }

  /** Under the same agreement, rewriting a note a second time with the same tags
      leaves it as the first rewrite made it. */
  lemma {:induction false} UpdateIdempotent(yaml: Yaml, render: seq<String> -> String, content: String, tags: seq<String>)
    requires SplitDocument(content).Block?
    requires NewMetadata(yaml, SplitDocument(content).yaml, tags).Some?
    requires var m := NewMetadata(yaml, SplitDocument(content).yaml, tags).value;
      yaml.dump(m).Some? && ClosesCleanly(yaml.dump(m).value)
      && yaml.load("\n" + yaml.dump(m).value) == Some(Map(m))
    ensures var once := UpdateTags(yaml, render, content, tags);
      UpdateTags(yaml, render, once, tags) == once
  {
    var m := NewMetadata(yaml, SplitDocument(content).yaml, tags).value;
    var dumped := yaml.dump(m).value;
    var body := SplitDocument(content).body;
    var once := UpdateTags(yaml, render, content, tags);
    assert once == "---\n" + dumped + "---\n" + body;
    SplitRewritten(dumped, body);
    assert Truthy(Map(m)) by {
      assert TagsKey in m;
      assert |m| > 0;
    }
    assert LoadOrEmpty(yaml, "\n" + dumped) == Some(Map(m));
    var sorted := StringItems(m[TagsKey].items).value;
    StringItemsRoundTrip(m[TagsKey].items);
    StrictlyIncreasingUnique(sorted, SortUnique(tags));
    assert m[TagsKey := TagList(SortUnique(tags))] == m;
    assert NewMetadata(yaml, "\n" + dumped, tags) == Some(m);
  }
}

=== FILE: ordering.dfy ===
/** Python's ordering of `str` values (lexicographic by code point) and
    `sorted(set(xs))` on lists of strings. */
module Ordering {
  import opened Text

  /** `a < b` on Python strings: the first differing code point decides, and a
      proper prefix comes first. */
  predicate Less(a: String, b: String)
    decreases |a|
  {
    if |a| == 0 then |b| > 0
    else if |b| == 0 then false
    else if a[0] != b[0] then a[0] < b[0]
    else Less(a[1..], b[1..])
  }

  /** `Less` is the textbook lexicographic order: either `a` is a proper prefix of
      `b`, or at the first position where they differ `a` has the smaller code point. */
  lemma {:induction false} LessIsLexicographic(a: String, b: String)
    ensures Less(a, b) <==>
      (|a| < |b| && a == b[..|a|])
      || (exists k :: 0 <= k < |a| && k < |b| && a[..k] == b[..k] && a[k] < b[k])
    decreases |a|
  {
    if |a| > 0 && |b| > 0 && a[0] == b[0] {
      LessIsLexicographic(a[1..], b[1..]);
      var a', b' := a[1..], b[1..];
      assert a == [a[0]] + a' && b == [b[0]] + b';
      if |a'| < |b'| && a' == b'[..|a'|] {
        assert a == b[..|a|];
      }
      if |a| < |b| && a == b[..|a|] {
        assert b'[..|a'|] == b[..|a|][1..];
      }
      if k :| 0 <= k < |a'| && k < |b'| && a'[..k] == b'[..k] && a'[k] < b'[k] {
        assert a[..k + 1] == [a[0]] + a'[..k] && b[..k + 1] == [b[0]] + b'[..k];
        assert a[k + 1] == a'[k] && b[k + 1] == b'[k];
      }
      if k :| 0 <= k < |a| && k < |b| && a[..k] == b[..k] && a[k] < b[k] {
        assert k > 0;
        assert a'[..k - 1] == a[1..k] == b[1..k] == b'[..k - 1];
        assert a'[k - 1] == a[k] && b'[k - 1] == b[k];
      }
    } else if |a| > 0 && |b| > 0 {
      if a[0] < b[0] {
        assert a[..0] == b[..0];
      }
      if k :| 0 <= k < |a| && k < |b| && a[..k] == b[..k] && a[k] < b[k] {
        assert k == 0 || a[..k][0] == b[..k][0];
      }
    }
  }

  lemma {:induction false} LessIrreflexive(a: String)
    ensures !Less(a, a)
    decreases |a|
  {
    if |a| > 0 {
      LessIrreflexive(a[1..]);
    }
  }

  lemma {:induction false} LessAsymmetric(a: String, b: String)
    requires Less(a, b)
    ensures !Less(b, a)
    decreases |a|
  {
    if |a| > 0 && |b| > 0 && a[0] == b[0] {
      LessAsymmetric(a[1..], b[1..]);
    }
  }

  lemma {:induction false} LessTransitive(a: String, b: String, c: String)
    requires Less(a, b) && Less(b, c)
    ensures Less(a, c)
    decreases |a|
  {
    if |a| > 0 && a[0] == b[0] && b[0] == c[0] {
      LessTransitive(a[1..], b[1..], c[1..]);
    }
  }

  /** Any two distinct strings are ordered one way or the other. */
  lemma {:induction false} LessTotal(a: String, b: String)
    requires a != b
    ensures Less(a, b) || Less(b, a)
    decreases |a|
  {
    if |a| > 0 && |b| > 0 && a[0] == b[0] {
      assert a == [a[0]] + a[1..] && b == [b[0]] + b[1..];
      LessTotal(a[1..], b[1..]);
    }
  }

  /** The elements of a list, as a set: Python's `set(xs)`. */
  function Elems<T>(xs: seq<T>): set<T> {
    set x | x in xs
  }

  /** Each element is strictly smaller than every later one: sorted and duplicate-free. */
  predicate StrictlyIncreasing(xs: seq<String>) {
    forall i, j :: 0 <= i < j < |xs| ==> Less(xs[i], xs[j])
  }

  /** Inserts `x` into a strictly increasing list, leaving it unchanged if `x` is already there. */
  function Insert(x: String, xs: seq<String>): (r: seq<String>)
    requires StrictlyIncreasing(xs)
    ensures StrictlyIncreasing(r)
    ensures Elems(r) == Elems(xs) + {x}
  {
    if |xs| == 0 then [x]
    else if x == xs[0] then xs
    else if Less(x, xs[0]) then
      assert forall j :: 0 < j < |xs| ==> Less(x, xs[j]) by {
        forall j | 0 < j < |xs| ensures Less(x, xs[j]) {
          LessTransitive(x, xs[0], xs[j]);
        }
      }
      [x] + xs
    else
      var rest := Insert(x, xs[1..]);
      assert Less(xs[0], x) by { LessTotal(x, xs[0]); }
      assert Elems(xs) == {xs[0]} + Elems(xs[1..]) by {
        assert xs == [xs[0]] + xs[1..];
      }
      assert forall y :: y in rest ==> Less(xs[0], y) by {
        forall y | y in rest ensures Less(xs[0], y) {
          assert y in Elems(rest);
        }
      }
      assert Elems([xs[0]] + rest) == {xs[0]} + Elems(rest);
      [xs[0]] + rest
  }

  /** `sorted(set(xs))`: the strictly increasing list of the elements of `xs`. */
  function SortUnique(xs: seq<String>): (r: seq<String>)
    ensures StrictlyIncreasing(r)
    ensures Elems(r) == Elems(xs)
  {
    if |xs| == 0 then []
    else
      assert Elems(xs) == {xs[0]} + Elems(xs[1..]) by {
        assert xs == [xs[0]] + xs[1..];
      }
      Insert(xs[0], SortUnique(xs[1..]))
  }

  lemma TailStrictlyIncreasing(xs: seq<String>)
    requires |xs| > 0 && StrictlyIncreasing(xs)
    ensures StrictlyIncreasing(xs[1..])
  {
    var t := xs[1..];
    forall i, j | 0 <= i < j < |t| ensures Less(t[i], t[j]) {
      assert t[i] == xs[i + 1] && t[j] == xs[j + 1];
    }
  }

  lemma NoElemsIsEmpty<T>(xs: seq<T>)
    ensures Elems(xs) == {} <==> |xs| == 0
  {
    if |xs| > 0 {
      assert xs[0] in Elems(xs);
    }
  }

  /** A set of strings has exactly one strictly increasing listing, so
      `sorted(set(xs))` is determined by the set of elements alone. */
  lemma {:induction false} StrictlyIncreasingUnique(a: seq<String>, b: seq<String>)
    requires StrictlyIncreasing(a) && StrictlyIncreasing(b)
    requires Elems(a) == Elems(b)
    ensures a == b
    decreases |a|
  {
    NoElemsIsEmpty(a);
    NoElemsIsEmpty(b);
    if |a| > 0 {
      assert a[0] in Elems(b);
      assert |b| > 0;
      assert b[0] in Elems(a);
      var i :| 0 <= i < |b| && b[i] == a[0];
      var j :| 0 <= j < |a| && a[j] == b[0];
      if i > 0 && j > 0 {
        LessAsymmetric(a[0], b[0]);
      } else if i > 0 {
        LessIrreflexive(b[0]);
      }
      assert a[0] == b[0];
      assert Elems(a[1..]) == Elems(a) - {a[0]} by {
        assert a == [a[0]] + a[1..];
        forall k | 0 < k < |a| ensures a[k] != a[0] {
          LessIrreflexive(a[0]);
        }
      }
      assert Elems(b[1..]) == Elems(b) - {b[0]} by {
        assert b == [b[0]] + b[1..];
        forall k | 0 < k < |b| ensures b[k] != b[0] {
          LessIrreflexive(b[0]);
        }
      }
      TailStrictlyIncreasing(a);
      TailStrictlyIncreasing(b);
      StrictlyIncreasingUnique(a[1..], b[1..]);
      assert a == [a[0]] + a[1..] && b == [b[0]] + b[1..];
    }
  }

  /** Sorting an already sorted, duplicate-free list changes nothing. */
  lemma SortUniqueOfSorted(xs: seq<String>)
    requires StrictlyIncreasing(xs)
    ensures SortUnique(xs) == xs
  {
    StrictlyIncreasingUnique(SortUnique(xs), xs);
  }
}

=== FILE: suggestions.dfy ===
/** The shape checks `suggest_tags` applies to the language-model reply. The
    prompt and the service call are outside the model; the reply's content
    segments arrive as input, and `json.loads` enters as a function. */
module Suggestions {
  import opened Wrappers
  import opened Text
  import opened Values

  /** One content segment of the reply: its `type` and its `text`. */
  datatype Segment = Segment(kind: String, text: String)

  /** The `ValueError`s (and the `json.loads` failure) the checks raise. */
  datatype Rejection =
    | NotExactlyOneSegment   // "Expected exactly one response from API"
    | NotText                // "Expected text response from API"
    | InvalidJson            // json.loads raised
    | NotAListOfStrings      // "Invalid response format from API"

  /** Accepts the reply only when it is a single text segment whose JSON is a list
      of strings, and then returns those strings; the checks apply in the order
      `suggest_tags` makes them. */
  function ValidateReply(loadJson: String -> Option<Value>, reply: seq<Segment>): (r: Result<seq<String>, Rejection>)
    ensures r == Err(NotExactlyOneSegment) <==> |reply| != 1
    ensures r == Err(NotText) <==> |reply| == 1 && reply[0].kind != "text"
    ensures r == Err(InvalidJson) <==>
      |reply| == 1 && reply[0].kind == "text" && loadJson(reply[0].text).None?
    ensures r.Ok? <==>
      |reply| == 1 && reply[0].kind == "text" && loadJson(reply[0].text).Some?
      && loadJson(reply[0].text).value.List?
      && (forall i :: 0 <= i < |loadJson(reply[0].text).value.items| ==> loadJson(reply[0].text).value.items[i].Str?)
    ensures r.Ok? ==> loadJson(reply[0].text) == Some(TagList(r.value))
  {
    if |reply| != 1 then Err(NotExactlyOneSegment)
    else if reply[0].kind != "text" then Err(NotText)
    else match loadJson(reply[0].text)
      case None => Err(InvalidJson)
      case Some(decoded) =>
        if !decoded.List? then Err(NotAListOfStrings)
        else match StringItems(decoded.items)
          case None => Err(NotAListOfStrings)
          case Some(tags) =>
            StringItemsRoundTrip(decoded.items);
            Ok(tags)
  }

  /** A reply whose JSON is an object, or a list holding a number, is refused. */
  lemma NonStringListRejected(loadJson: String -> Option<Value>, text: String)
    requires loadJson(text) == Some(EmptyMap) || loadJson(text) == Some(List([Str("a"), Other(true)]))
    ensures ValidateReply(loadJson, [Segment("text", text)]) == Err(NotAListOfStrings)
  {
    if loadJson(text) == Some(List([Str("a"), Other(true)])) {
      assert !List([Str("a"), Other(true)]).items[1].Str?;
    }
  }
}

=== FILE: tagger.dfy ===
/** `add_tags`: read the note's current tags, merge in the suggested ones, rewrite
    the metadata block and report what was added. Reading and writing the file,
    building the prompt text and calling the service are outside the model; the
    note's text, the vault's notes and the service's reply arrive as inputs. */
module Tagger {
  import opened Wrappers
  import opened Text
  import opened Ordering
  import opened Values
  import opened Frontmatter
  import opened Vocabulary
  import opened Suggestions

  /** Why `add_tags` raises. */
  datatype Failure =
    | MetadataNotDict           // `frontmatter.get` on loaded metadata that is not a dict
    | CannotBuildPrompt         // sorting or joining a vault tag or current tag that is not a string
    | ReplyRejected(why: Rejection)
    | CannotConcatenate         // `current_tags + new_tags` where `tags` holds a dict

  /** What a successful run produces: the text written back, and the tags reported as added. */
  datatype Report = Report(updated: String, added: set<String>)

  /** Every vault tag is a string, so `', '.join(sorted(vault_tags))` succeeds. */
  predicate AllStrings(vocabulary: set<Value>) {
    forall v :: v in vocabulary ==> v.Str?
  }

  /** `frontmatter.get('tags', [])`, with a string turned into a one-element list,
      and the failure it later causes when it is not a list of strings. */
  function CurrentTags(meta: map<String, Value>): (r: Result<seq<String>, Failure>)
    ensures TagsKey !in meta ==> r == Ok([])
    ensures TagsKey in meta && meta[TagsKey].Str? ==> r == Ok([meta[TagsKey].s])
    ensures TagsKey in meta && meta[TagsKey].List? ==>
      (r.Ok? <==> forall i :: 0 <= i < |meta[TagsKey].items| ==> meta[TagsKey].items[i].Str?)
    ensures r.Ok? && TagsKey in meta && meta[TagsKey].List? ==> meta[TagsKey] == TagList(r.value)
    ensures r == Err(CannotConcatenate) <==> TagsKey in meta && meta[TagsKey].Map?
    ensures TagsKey in meta && (meta[TagsKey].Null? || meta[TagsKey].Other?) ==> r == Err(CannotBuildPrompt)
    ensures r.Err? ==> r.error == CannotBuildPrompt || r.error == CannotConcatenate
  {
    if TagsKey !in meta then Ok([])
    else match meta[TagsKey]
      case Str(s) => Ok([s])
      case List(xs) =>
        (match StringItems(xs)
         case None => Err(CannotBuildPrompt)
         case Some(ts) =>
           StringItemsRoundTrip(xs);
           Ok(ts))
      case Map(_) => Err(CannotConcatenate)
      case _ => Err(CannotBuildPrompt)
  }

  /** `sorted(set(current + suggested))`: sorted, free of duplicates, and holding
      exactly the current and the suggested tags. */
  function MergeTags(current: seq<String>, suggested: seq<String>): (r: seq<String>)
    ensures StrictlyIncreasing(r)
    ensures Elems(r) == Elems(current) + Elems(suggested)
  {
    assert Elems(current + suggested) == Elems(current) + Elems(suggested);
    SortUnique(current + suggested)
  }

  /** `set(suggested) - set(current)`, the tags reported as added: suggested, not
      current, and every suggestion is either reported or already current. */
  function AddedTags(current: seq<String>, suggested: seq<String>): (r: set<String>)
    ensures r <= Elems(suggested)
    ensures r !! Elems(current)
    ensures Elems(suggested) <= r + Elems(current)
  {
    Elems(suggested) - Elems(current)
  }

  /** `add_tags` on the note's text, the vault's notes and the service's reply. */
  function AddTags(yaml: Yaml, render: seq<String> -> String, loadJson: String -> Option<Value>,
                   contents: String, vault: seq<FileRead>, reply: seq<Segment>): (r: Result<Report, Failure>)
    ensures ValidateReply(loadJson, reply).Err? ==> r.Err?
    ensures !ParseFrontmatter(yaml, contents).Map? ==> r == Err(MetadataNotDict)
    ensures ParseFrontmatter(yaml, contents).Map? && !AllStrings(VaultTags(yaml, vault))
            ==> r == Err(CannotBuildPrompt)
    ensures ParseFrontmatter(yaml, contents).Map?
            && CurrentTags(ParseFrontmatter(yaml, contents).entries) == Err(CannotBuildPrompt)
            ==> r == Err(CannotBuildPrompt)
    ensures ParseFrontmatter(yaml, contents).Map? && AllStrings(VaultTags(yaml, vault))
            && CurrentTags(ParseFrontmatter(yaml, contents).entries) != Err(CannotBuildPrompt)
            && ValidateReply(loadJson, reply).Err?
            ==> r == Err(ReplyRejected(ValidateReply(loadJson, reply).error))
    ensures ParseFrontmatter(yaml, contents).Map? && AllStrings(VaultTags(yaml, vault))
            && CurrentTags(ParseFrontmatter(yaml, contents).entries) == Err(CannotConcatenate)
            && ValidateReply(loadJson, reply).Ok?
            ==> r == Err(CannotConcatenate)
    ensures r.Ok? <==>
      && ParseFrontmatter(yaml, contents).Map?
      && AllStrings(VaultTags(yaml, vault))
      && CurrentTags(ParseFrontmatter(yaml, contents).entries).Ok?
      && ValidateReply(loadJson, reply).Ok?
    ensures r.Ok? ==>
      var current := CurrentTags(ParseFrontmatter(yaml, contents).entries).value;
      var suggested := ValidateReply(loadJson, reply).value;
      && r.value.added == Elems(suggested) - Elems(current)
      && r.value.updated == UpdateTags(yaml, render, contents, MergeTags(current, suggested))
  {
    var meta := ParseFrontmatter(yaml, contents);
    if !meta.Map? then Err(MetadataNotDict)
    else
      var current := CurrentTags(meta.entries);
      if !AllStrings(VaultTags(yaml, vault)) then Err(CannotBuildPrompt)
      else if current == Err(CannotBuildPrompt) then Err(CannotBuildPrompt)
      else match ValidateReply(loadJson, reply)
        case Err(why) => Err(ReplyRejected(why))
        case Ok(suggested) =>
          match current
          case Err(e) => Err(e)
          case Ok(cur) =>
            var all := MergeTags(cur, suggested);
            Ok(Report(UpdateTags(yaml, render, contents, all), AddedTags(cur, suggested)))
  }

  /** The merged list is the one sorted, duplicate-free listing of the union. */
  lemma MergeIsCanonical(current: seq<String>, suggested: seq<String>, listing: seq<String>)
    requires StrictlyIncreasing(listing)
    requires Elems(listing) == Elems(current) + Elems(suggested)
    ensures MergeTags(current, suggested) == listing
  {
    StrictlyIncreasingUnique(MergeTags(current, suggested), listing);
  }

  /** The tags reported as added are exactly those the merge puts in that were
      not there before (whether or not the rewrite then reaches the file). */
  lemma AddedIsWhatMergeAdds(current: seq<String>, suggested: seq<String>)
    ensures AddedTags(current, suggested) == Elems(MergeTags(current, suggested)) - Elems(current)
  {
  }

  /** Merging suggestions that are all current tags into a merged list changes
      nothing: in particular an empty suggestion list. */
  lemma MergeNothingNew(current: seq<String>, suggested: seq<String>)
    requires StrictlyIncreasing(current)
    requires Elems(suggested) <= Elems(current)
    ensures MergeTags(current, suggested) == current
    ensures AddedTags(current, suggested) == {}
  {
    StrictlyIncreasingUnique(MergeTags(current, suggested), current);
  }

  /** Merging the same suggestions twice gives what merging once gave. */
  lemma MergeIdempotent(current: seq<String>, suggested: seq<String>)
    ensures MergeTags(MergeTags(current, suggested), suggested) == MergeTags(current, suggested)
  {
    MergeNothingNew(MergeTags(current, suggested), suggested);
  }

  /** The current tag `foo` merged with the suggestions `bar` and `baz`. */
  lemma MergeExample()
    ensures MergeTags(["foo"], ["bar", "baz"]) == ["bar", "baz", "foo"]
    ensures AddedTags(["foo"], ["bar", "baz"]) == {"bar", "baz"}
  {
    var listing: seq<String> := ["bar", "baz", "foo"];
    assert Less("bar", "baz") by {
      assert Less("r", "z");
      assert Less("ar", "az");
    }
    assert Less("baz", "foo");
    assert Less("bar", "foo");
    assert Elems(listing) == {"bar", "baz", "foo"};
    assert Elems<String>(["foo"]) + Elems<String>(["bar", "baz"]) == {"bar", "baz", "foo"};
    MergeIsCanonical(["foo"], ["bar", "baz"], listing);
    assert "foo" != "bar" && "foo" != "baz";
  }

  /** A block rewritten with sorted, duplicate-free tags reads back as a dict
      whose current tags are exactly those tags. */
  lemma RewrittenTagsReadBack(yaml: Yaml, render: seq<String> -> String, content: String, tags: seq<String>)
    requires StrictlyIncreasing(tags)
    requires SplitDocument(content).Block?
    requires NewMetadata(yaml, SplitDocument(content).yaml, tags).Some?
    requires var m := NewMetadata(yaml, SplitDocument(content).yaml, tags).value;
      yaml.dump(m).Some? && ClosesCleanly(yaml.dump(m).value)
      && yaml.load("\n" + yaml.dump(m).value) == Some(Map(m))
    ensures ParseFrontmatter(yaml, UpdateTags(yaml, render, content, tags)).Map?
    ensures CurrentTags(ParseFrontmatter(yaml, UpdateTags(yaml, render, content, tags)).entries) == Ok(tags)
  {
    var m := NewMetadata(yaml, SplitDocument(content).yaml, tags).value;
    UpdateThenParse(yaml, render, content, tags);
    SortUniqueOfSorted(tags);
    assert m[TagsKey] == TagList(tags);
    TagListRoundTrip(tags);
  }

  /** A rescan that finds the rewritten note, whose `tags` read back as a list of
      strings, still finds nothing but strings. */
  lemma RescanKeepsStrings(yaml: Yaml, vault: seq<FileRead>, t: nat, text: String, tags: seq<String>)
    requires AllStrings(VaultTags(yaml, vault))
    requires ParseFrontmatter(yaml, text).Map?
    requires TagsKey in ParseFrontmatter(yaml, text).entries
    requires ParseFrontmatter(yaml, text).entries[TagsKey] == TagList(tags)
    ensures AllStrings(VaultTags(yaml, Rescanned(vault, t, text)))
  {
    var r := Rescanned(vault, t, text);
    StringListContributesAll(ParseFrontmatter(yaml, text), tags);
    forall v | v in VaultTags(yaml, r) ensures v.Str? {
      var i :| 0 <= i < |r| && v in FileContribution(yaml, r[i]);
      if i != t {
        assert r[i] == vault[i];
      } else {
        assert v in set x | x in tags :: Str(x);
      }
    }
  }

  /** Running the tagger again on the note it just wrote, with a service that
      suggests nothing, leaves the note as it was and reports nothing added,
      provided the YAML library reads back what it dumped. The second run scans
      the vault afresh and so finds the note, at position `t`, as just written. */
  lemma {:induction false} SecondRunChangesNothing(
    yaml: Yaml, render: seq<String> -> String, loadJson: String -> Option<Value>,
    contents: String, vault: seq<FileRead>, t: nat, reply: seq<Segment>, emptyReply: seq<Segment>,
    current: seq<String>, suggested: seq<String>)
    requires AddTags(yaml, render, loadJson, contents, vault, reply).Ok?
    requires t < |vault| ==> vault[t] == Read(contents)
    requires current == CurrentTags(ParseFrontmatter(yaml, contents).entries).value
    requires suggested == ValidateReply(loadJson, reply).value
    requires SplitDocument(contents).Block?
    requires NewMetadata(yaml, SplitDocument(contents).yaml, MergeTags(current, suggested)).Some?
    requires var m := NewMetadata(yaml, SplitDocument(contents).yaml, MergeTags(current, suggested)).value;
      yaml.dump(m).Some? && ClosesCleanly(yaml.dump(m).value)
      && yaml.load("\n" + yaml.dump(m).value) == Some(Map(m))
    requires ValidateReply(loadJson, emptyReply) == Ok([])
    ensures var once := AddTags(yaml, render, loadJson, contents, vault, reply).value.updated;
      AddTags(yaml, render, loadJson, once, Rescanned(vault, t, once), emptyReply) == Ok(Report(once, {}))
  {
    var merged := MergeTags(current, suggested);
    var once := AddTags(yaml, render, loadJson, contents, vault, reply).value.updated;
    RewrittenTagsReadBack(yaml, render, contents, merged);
    UpdateThenParse(yaml, render, contents, merged);
    SortUniqueOfSorted(merged);
    RescanKeepsStrings(yaml, vault, t, once, merged);
    UpdateIdempotent(yaml, render, contents, merged);
    MergeNothingNew(merged, []);
    assert once == UpdateTags(yaml, render, once, merged);
  }

  /** A reply that is not a single text segment holding a JSON list of strings
      stops the run before anything is written. */
  lemma RejectedReplyWritesNothing(yaml: Yaml, render: seq<String> -> String, loadJson: String -> Option<Value>,
                                   contents: String, vault: seq<FileRead>, reply: seq<Segment>)
    requires ParseFrontmatter(yaml, contents).Map?
    requires AllStrings(VaultTags(yaml, vault))
    requires CurrentTags(ParseFrontmatter(yaml, contents).entries).Ok?
    requires ValidateReply(loadJson, reply).Err?
    ensures AddTags(yaml, render, loadJson, contents, vault, reply)
            == Err(ReplyRejected(ValidateReply(loadJson, reply).error))
  {
  }

  /** The example note's metadata, as read by `parse_frontmatter`. */
  lemma ExampleNoteParses(yaml: Yaml)
    requires yaml.load("\ntags: foo\n") == Some(Map(map[TagsKey := Str("foo")]))
    ensures ParseFrontmatter(yaml, "---\ntags: foo\n---\nbody text") == Map(map[TagsKey := Str("foo")])
  {
    ExampleNoteSplits();
    var meta := Map(map[TagsKey := Str("foo")]);
    assert Truthy(meta) by {
      assert TagsKey in meta.entries;
    }
  }

  /** The example note rewritten with sorted tags keeps its body. */
  lemma ExampleNoteRewrites(yaml: Yaml, render: seq<String> -> String, contents: String, tags: seq<String>)
    requires contents == "---\ntags: foo\n---\nbody text"
    requires StrictlyIncreasing(tags)
    requires yaml.load("\ntags: foo\n") == Some(Map(map[TagsKey := Str("foo")]))
    requires yaml.dump(map[TagsKey := TagList(tags)]).Some?
    ensures UpdateTags(yaml, render, contents, tags)
            == "---\n" + yaml.dump(map[TagsKey := TagList(tags)]).value + "---\n" + "body text"
  {
    ExampleNoteSplits();
    var meta := Map(map[TagsKey := Str("foo")]);
    assert Truthy(meta) by {
      assert TagsKey in meta.entries;
    }
    NewMetadataOfSorted(yaml, "\ntags: foo\n", tags);
    assert meta.entries[TagsKey := TagList(tags)] == map[TagsKey := TagList(tags)];
  }

  /** The note `---\ntags: foo\n---\nbody text` with the suggestions `bar` and
      `baz`: the rewritten block carries `[bar, baz, foo]`, the body is kept, and
      `bar` and `baz` are reported as added. */
  lemma EndToEndExample(yaml: Yaml, render: seq<String> -> String, loadJson: String -> Option<Value>,
                        contents: String, reply: seq<Segment>)
    requires contents == "---\ntags: foo\n---\nbody text"
    requires yaml.load("\ntags: foo\n") == Some(Map(map[TagsKey := Str("foo")]))
    requires yaml.dump(map[TagsKey := TagList(["bar", "baz", "foo"])]).Some?
    requires ValidateReply(loadJson, reply) == Ok(["bar", "baz"])
    ensures var dumped := yaml.dump(map[TagsKey := TagList(["bar", "baz", "foo"])]).value;
      AddTags(yaml, render, loadJson, contents, [], reply)
      == Ok(Report("---\n" + dumped + "---\n" + "body text", {"bar", "baz"}))
  {
    ExampleNoteParses(yaml);
    MergeExample();
    ExampleNoteRewrites(yaml, render, contents, ["bar", "baz", "foo"]);
    assert CurrentTags(map[TagsKey := Str("foo")]) == Ok(["foo"]);
    assert VaultTags(yaml, []) == {};
  }

  /** A note whose block never closes is written back unchanged, yet every
      suggestion is still reported as added. */
  lemma UnclosedBlockReportsUnwritten(yaml: Yaml, render: seq<String> -> String, loadJson: String -> Option<Value>,
                                      contents: String, vault: seq<FileRead>, reply: seq<Segment>)
    requires SplitDocument(contents).Unclosed?
    requires AddTags(yaml, render, loadJson, contents, vault, reply).Ok?
    ensures AddTags(yaml, render, loadJson, contents, vault, reply).value.updated == contents
    ensures AddTags(yaml, render, loadJson, contents, vault, reply).value.added
            == Elems(ValidateReply(loadJson, reply).value)
  {
    assert ParseFrontmatter(yaml, contents) == EmptyMap;
    assert CurrentTags(map[]) == Ok([]);
  }

  /** The header written in front of a note without a block splits, on the next
      read, into the `tags:` line and the old note behind one newline. */
  lemma {:induction false} SplitHeader(rendered: String, contents: String)
    requires ClosesCleanly("tags: " + rendered + "\n")
    ensures SplitDocument(NewHeader(rendered) + contents)
            == Block("\ntags: " + rendered + "\n", |rendered| + 11, "\n" + contents)
  {
    var line := "tags: " + rendered + "\n";
    assert NewHeader(rendered) + contents == "---\n" + line + "---\n" + ("\n" + contents);
    SplitRewritten(line, "\n" + contents);
    assert "\n" + line == "\ntags: " + rendered + "\n";
  }

  /** Running the tagger again, with a service that suggests nothing, on a note that
      had no block and so received a fresh header: nothing is reported as added, and
      the header is replaced by the dumped metadata holding the same tags, in front
      of the old note and one newline left over from the header. This holds when
      the YAML library reads the header's `tags:` line as the merged tag list. The
      second run scans the vault afresh and finds the note, at position `t`, as
      just written. */
  lemma {:induction false} SecondRunOnHeaderedNote(
    yaml: Yaml, render: seq<String> -> String, loadJson: String -> Option<Value>,
    contents: String, vault: seq<FileRead>, t: nat, reply: seq<Segment>, emptyReply: seq<Segment>,
    current: seq<String>, suggested: seq<String>)
    requires AddTags(yaml, render, loadJson, contents, vault, reply).Ok?
    requires t < |vault| ==> vault[t] == Read(contents)
    requires current == CurrentTags(ParseFrontmatter(yaml, contents).entries).value
    requires suggested == ValidateReply(loadJson, reply).value
    requires !StartsWith(contents, Delimiter)
    requires var merged := MergeTags(current, suggested);
      ClosesCleanly("tags: " + render(merged) + "\n")
      && yaml.load("\ntags: " + render(merged) + "\n") == Some(Map(map[TagsKey := TagList(merged)]))
    requires ValidateReply(loadJson, emptyReply) == Ok([])
    ensures var merged := MergeTags(current, suggested);
      var once := AddTags(yaml, render, loadJson, contents, vault, reply).value.updated;
      var again := AddTags(yaml, render, loadJson, once, Rescanned(vault, t, once), emptyReply);
      && again.Ok?
      && again.value.added == {}
      && SplitDocument(once).Block?
      && NewMetadata(yaml, SplitDocument(once).yaml, merged) == Some(map[TagsKey := TagList(merged)])
      && again.value.updated == UpdateTags(yaml, render, once, merged)
      && (yaml.dump(map[TagsKey := TagList(merged)]).Some? ==>
            again.value.updated
            == "---\n" + yaml.dump(map[TagsKey := TagList(merged)]).value + "---\n" + "\n" + contents)
  {
    var merged := MergeTags(current, suggested);
    var rendered := render(merged);
    var once := AddTags(yaml, render, loadJson, contents, vault, reply).value.updated;
    assert once == NewHeader(rendered) + contents;
    HeaderReadsBack(yaml, render, contents, merged);
    var m := map[TagsKey := TagList(merged)];
    RescanKeepsStrings(yaml, vault, t, once, merged);
    TagListRoundTrip(merged);
    assert CurrentTags(m) == Ok(merged);
    MergeNothingNew(merged, []);
  }

  /** On the next run, a note that received a fresh header reads back as exactly
      the tags the header lists, when the YAML library reads its `tags:` line so. */
  lemma {:induction false} HeaderReadsBack(yaml: Yaml, render: seq<String> -> String, contents: String, tags: seq<String>)
    requires StrictlyIncreasing(tags)
    requires ClosesCleanly("tags: " + render(tags) + "\n")
    requires yaml.load("\ntags: " + render(tags) + "\n") == Some(Map(map[TagsKey := TagList(tags)]))
    ensures var once := NewHeader(render(tags)) + contents;
      && ParseFrontmatter(yaml, once) == Map(map[TagsKey := TagList(tags)])
      && SplitDocument(once).Block?
      && NewMetadata(yaml, SplitDocument(once).yaml, tags) == Some(map[TagsKey := TagList(tags)])
      && (yaml.dump(map[TagsKey := TagList(tags)]).Some? ==>
            UpdateTags(yaml, render, once, tags)
            == "---\n" + yaml.dump(map[TagsKey := TagList(tags)]).value + "---\n" + "\n" + contents)
  {
    var rendered := render(tags);
    SplitHeader(rendered, contents);
    var m := map[TagsKey := TagList(tags)];
    assert Truthy(Map(m)) by {
      assert TagsKey in m;
    }
    NewMetadataOfSorted(yaml, "\ntags: " + rendered + "\n", tags);
    assert m[TagsKey := TagList(tags)] == m;
  }
}

=== FILE: text.dfy ===
/** Strings as sequences of code points, and the few `str` operations the tagger uses:
    `startswith`, `index` and slicing with Python's clamping. */
module Text {
  import opened Wrappers

  type String = seq<char>

  /** `s.startswith(p)` */
  predicate StartsWith(s: String, p: String) {
    |p| <= |s| && s[..|p|] == p
  }

  /** `s.endswith(p)` */
  predicate EndsWith(s: String, p: String) {
    |p| <= |s| && s[|s| - |p|..] == p
  }

  /** `pat` occurs in `s` starting at index `i`. */
  predicate OccursAt(s: String, pat: String, i: nat) {
    i + |pat| <= |s| && s[i..i + |pat|] == pat
  }

  /** The first index at or after `from` where `pat` occurs in `s`, if any. */
  function FindFrom(s: String, pat: String, from: nat): (r: Option<nat>)
    decreases |s| - from
    ensures r.Some? ==> from <= r.value && OccursAt(s, pat, r.value)
    ensures r.Some? ==> forall j: nat :: from <= j < r.value ==> !OccursAt(s, pat, j)
    ensures r.None? ==> forall j: nat :: from <= j ==> !OccursAt(s, pat, j)
  {
    if from + |pat| > |s| then None
    else if s[from..from + |pat|] == pat then Some(from)
    else FindFrom(s, pat, from + 1)
  }

  /** `s.index(pat)`, with `None` where Python raises `ValueError`. */
  function Find(s: String, pat: String): Option<nat> {
    FindFrom(s, pat, 0)
  }

  /** Searching the suffix `s[k:]` and adding `k` back finds the first occurrence
      of `pat` in `s` at or after `k`: the idiom `s[k:].index(pat) + k`. */
  lemma {:induction false} FindInSuffix(s: String, pat: String, k: nat)
    requires k <= |s|
    ensures Find(s[k..], pat).None? <==> FindFrom(s, pat, k).None?
    ensures Find(s[k..], pat).Some? ==> Find(s[k..], pat).value + k == FindFrom(s, pat, k).value
  {
    var t := s[k..];
    forall j: nat | k <= j
      ensures OccursAt(s, pat, j) <==> OccursAt(t, pat, j - k)
    {
      if j + |pat| <= |s| {
        assert t[j - k..j - k + |pat|] == s[j..j + |pat|];
      }
    }
    var a := Find(t, pat);
    var b := FindFrom(s, pat, k);
    if a.Some? {
      var i := a.value + k;
      assert OccursAt(s, pat, i);
      forall j: nat | k <= j < i
        ensures !OccursAt(s, pat, j)
      {
        assert !OccursAt(t, pat, j - k);
      }
      assert b.Some? && b.value == i;
    } else {
      forall j: nat | k <= j
        ensures !OccursAt(s, pat, j)
      {
        assert !OccursAt(t, pat, j - k);
      }
    }
  }

  /** `s[k:]`: Python clamps a start index past the end to the empty string. */
  function Suffix(s: String, k: nat): (r: String)
    ensures |r| == if k <= |s| then |s| - k else 0
    ensures k <= |s| ==> s == s[..k] + r
  {
    if k <= |s| then s[k..] else []
  }
}

=== FILE: values.dfy ===
/** The Python objects that `yaml.safe_load` and `json.loads` hand back, reduced to
    what the tagger looks at: strings, lists, string-keyed dicts, `None`, and every
    other scalar (numbers, booleans, dates) known only by its truthiness. */
module Values {
  import opened Wrappers
  import opened Text

  datatype Value =
    | Null
    | Str(s: String)
    | List(items: seq<Value>)
    | Map(entries: map<String, Value>)
    | Other(truthy: bool)

  /** `{}` */
  const EmptyMap: Value := Map(map[])

  /** Python's truth value: `None`, `""`, `[]` and `{}` are false. */
  predicate Truthy(v: Value) {
    match v
    case Null => false
    case Str(s) => |s| > 0
    case List(xs) => |xs| > 0
    case Map(m) => |m| > 0
    case Other(t) => t
  }

  /** Whether the object may be put in a Python `set`: lists and dicts may not. */
  predicate Hashable(v: Value) {
    !v.List? && !v.Map?
  }

  /** The strings of a list whose every element is a `str`; `None` as soon as one is not. */
  function StringItems(xs: seq<Value>): (r: Option<seq<String>>)
    ensures r.Some? <==> forall i :: 0 <= i < |xs| ==> xs[i].Str?
    ensures r.Some? ==> |r.value| == |xs|
    ensures r.Some? ==> forall i :: 0 <= i < |xs| ==> xs[i] == Str(r.value[i])
  {
    if |xs| == 0 then Some([])
    else if !xs[0].Str? then None
    else match StringItems(xs[1..])
      case None => None
      case Some(rest) => Some([xs[0].s] + rest)
  }

  /** A Python list of strings. */
  function TagList(ts: seq<String>): Value {
    List(seq(|ts|, i requires 0 <= i < |ts| => Str(ts[i])))
  }

  /** Reading the strings back out of a list of strings gives the original strings. */
  lemma TagListRoundTrip(ts: seq<String>)
    ensures TagList(ts).List?
    ensures StringItems(TagList(ts).items) == Some(ts)
  {
    var r := StringItems(TagList(ts).items);
    assert r.Some?;
    assert r.value == ts;
  }

  /** Conversely, a list whose items all are strings is the list of those strings. */
  lemma StringItemsRoundTrip(xs: seq<Value>)
    requires StringItems(xs).Some?
    ensures TagList(StringItems(xs).value) == List(xs)
  {
    assert TagList(StringItems(xs).value).items == xs;
  }
}

=== FILE: vocabulary.dfy ===
/** `get_all_vault_tags`: the union of the tags every note in the vault declares.
    Walking the directory and reading files is I/O; each note enters as the
    outcome of reading it. */
module Vocabulary {
  import opened Text
  import opened Ordering
  import opened Values
  import opened Frontmatter

  /** What reading one note produced: its text, or an error (caught and skipped). */
  datatype FileRead = Read(content: String) | Unreadable

  /** The elements `set.update` adds from a list before it reaches the first
      unhashable one and raises: the exception is caught after those are added. */
  function HashablePrefix(xs: seq<Value>): (r: seq<Value>)
    ensures r <= xs
    ensures forall i :: 0 <= i < |r| ==> Hashable(r[i])
    ensures |r| < |xs| ==> !Hashable(xs[|r|])
  {
    if |xs| == 0 || !Hashable(xs[0]) then []
    else [xs[0]] + HashablePrefix(xs[1..])
  }

  /** The tags one parsed note adds: a string `tags` adds itself, a list adds its
      elements; a missing `tags`, any other value, or metadata that is not a dict
      (where `'tags' in …` or the lookup raises) adds nothing. */
  function TagsContribution(meta: Value): (r: set<Value>)
    ensures forall v :: v in r ==> Hashable(v)
    ensures r != {} ==> meta.Map? && TagsKey in meta.entries
                        && (meta.entries[TagsKey].Str? || meta.entries[TagsKey].List?)
    ensures meta.Map? && TagsKey in meta.entries && meta.entries[TagsKey].List?
            ==> r <= Elems(meta.entries[TagsKey].items)
  {
    if meta.Map? && TagsKey in meta.entries then
      match meta.entries[TagsKey]
      case Str(s) => {Str(s)}
      case List(xs) => Elems(HashablePrefix(xs))
      case _ => {}
    else {}
  }

  /** The tags one note adds to the vocabulary. */
  function FileContribution(yaml: Yaml, f: FileRead): (r: set<Value>)
    ensures forall v :: v in r ==> Hashable(v)
    ensures r != {} ==> f.Read? && SplitDocument(f.content).Block?
  {
    match f
    case Unreadable => {}
    case Read(content) => TagsContribution(ParseFrontmatter(yaml, content))
  }

  /** The union of a list of sets: a value is in it exactly when some set holds it. */
  function Union(parts: seq<set<Value>>): (r: set<Value>)
    ensures forall v :: v in r <==> exists i :: 0 <= i < |parts| && v in parts[i]
  {
    if |parts| == 0 then {}
    else
      var r := Union(parts[..|parts| - 1]) + parts[|parts| - 1];
      assert forall i :: 0 <= i < |parts| - 1 ==> parts[..|parts| - 1][i] == parts[i];
      r
  }

  /** What each note contributes, in vault order. */
  function Contributions(yaml: Yaml, files: seq<FileRead>): (cs: seq<set<Value>>)
    ensures |cs| == |files|
    ensures forall i :: 0 <= i < |files| ==> cs[i] == FileContribution(yaml, files[i])
  {
    seq(|files|, i requires 0 <= i < |files| => FileContribution(yaml, files[i]))
  }

  /** The vocabulary of a vault: the union of what its notes contribute. */
  function VaultTags(yaml: Yaml, files: seq<FileRead>): (r: set<Value>)
    ensures forall v :: v in r <==> exists i :: 0 <= i < |files| && v in FileContribution(yaml, files[i])
  {
    Union(Contributions(yaml, files))
  }

  /** The scan as `get_all_vault_tags` runs it, one note at a time: it gathers
      exactly the vocabulary. */
  method CollectVaultTags(yaml: Yaml, files: seq<FileRead>) returns (all: set<Value>)
    ensures all == VaultTags(yaml, files)
  {
    ghost var cs := Contributions(yaml, files);
    all := {};
    var n := 0;
    while n < |files|
      invariant n <= |files|
      invariant all == Union(cs[..n])
    {
      UnionStep(cs, n);
      all := all + FileContribution(yaml, files[n]);
      n := n + 1;
    }
    assert cs[..|files|] == cs;
  }

  /** One more note scanned adds its contribution to what was gathered so far. */
  lemma UnionStep(parts: seq<set<Value>>, n: nat)
    requires n < |parts|
    ensures Union(parts[..n + 1]) == Union(parts[..n]) + parts[n]
  {
    assert parts[..n + 1][..n] == parts[..n];
  }

  /** The vault as the next scan finds it once the note at position `t` holds
      `text`; a position past the end stands for a note kept outside the vault,
      which the scan does not see. Every other note is as it was. */
  function Rescanned(files: seq<FileRead>, t: nat, text: String): (r: seq<FileRead>)
    ensures |r| == |files|
    ensures forall i :: 0 <= i < |files| && i != t ==> r[i] == files[i]
    ensures t < |files| ==> r[t] == Read(text)
  {
    if t < |files| then files[t := Read(text)] else files
  }

  /** The vocabulary does not depend on the order in which the notes are visited. */
  lemma {:induction false} VaultTagsOrderIndependent(yaml: Yaml, files: seq<FileRead>, shuffled: seq<FileRead>)
    requires multiset(files) == multiset(shuffled)
    ensures VaultTags(yaml, files) == VaultTags(yaml, shuffled)
  {
    forall v | v in VaultTags(yaml, files) ensures v in VaultTags(yaml, shuffled) {
      var i :| 0 <= i < |files| && v in FileContribution(yaml, files[i]);
      assert files[i] in multiset(shuffled);
      var k :| 0 <= k < |shuffled| && shuffled[k] == files[i];
    }
    forall v | v in VaultTags(yaml, shuffled) ensures v in VaultTags(yaml, files) {
      var i :| 0 <= i < |shuffled| && v in FileContribution(yaml, shuffled[i]);
      assert shuffled[i] in multiset(files);
      var k :| 0 <= k < |files| && files[k] == shuffled[i];
    }
  }

  /** Scanning two runs of notes one after the other unions their vocabularies. */
  lemma {:induction false} UnionAppend(a: seq<set<Value>>, b: seq<set<Value>>)
    ensures Union(a + b) == Union(a) + Union(b)
  {
    var ab := a + b;
    forall v | v in Union(ab) ensures v in Union(a) + Union(b) {
      var i :| 0 <= i < |ab| && v in ab[i];
      if i < |a| {
        assert ab[i] == a[i];
      } else {
        assert ab[i] == b[i - |a|];
      }
    }
    forall v | v in Union(a) + Union(b) ensures v in Union(ab) {
      if v in Union(a) {
        var i :| 0 <= i < |a| && v in a[i];
        assert ab[i] == a[i];
      } else {
        var i :| 0 <= i < |b| && v in b[i];
        assert ab[|a| + i] == b[i];
      }
    }
  }

  lemma ContributionsAppend(yaml: Yaml, a: seq<FileRead>, b: seq<FileRead>)
    ensures Contributions(yaml, a + b) == Contributions(yaml, a) + Contributions(yaml, b)
  {
    var l := Contributions(yaml, a + b);
    var r := Contributions(yaml, a) + Contributions(yaml, b);
    forall i | 0 <= i < |l| ensures l[i] == r[i] {
      if i < |a| {
        assert (a + b)[i] == a[i];
      } else {
        assert (a + b)[i] == b[i - |a|];
      }
    }
  }

  /** A note that contributes nothing, such as one that cannot be read, neither
      stops the scan nor changes its result. */
  lemma SkippedNoteChangesNothing(yaml: Yaml, before: seq<FileRead>, bad: FileRead, after: seq<FileRead>)
    requires FileContribution(yaml, bad) == {}
    ensures VaultTags(yaml, before + [bad] + after) == VaultTags(yaml, before + after)
  {
    var cb := Contributions(yaml, before);
    var ca := Contributions(yaml, after);
    ContributionsAppend(yaml, before, [bad]);
    ContributionsAppend(yaml, before + [bad], after);
    ContributionsAppend(yaml, before, after);
    assert Contributions(yaml, [bad]) == [{}];
    UnionAppend(cb + [{}], ca);
    UnionAppend(cb, [{}]);
    UnionAppend(cb, ca);
    assert Union([{}]) == {};
  }

  /** A string `tags` value contributes that one string. */
  lemma StringTagContributesItself(meta: Value, tag: String)
    requires meta.Map? && TagsKey in meta.entries && meta.entries[TagsKey] == Str(tag)
    ensures TagsContribution(meta) == {Str(tag)}
  {
  }

  /** A list of strings contributes every one of its strings. */
  lemma {:induction false} StringListContributesAll(meta: Value, tags: seq<String>)
    requires meta.Map? && TagsKey in meta.entries && meta.entries[TagsKey] == TagList(tags)
    ensures TagsContribution(meta) == set t | t in tags :: Str(t)
  {
    var xs := TagList(tags).items;
    var p := HashablePrefix(xs);
    assert forall i :: 0 <= i < |xs| ==> Hashable(xs[i]);
    assert |p| == |xs|;
    assert p == xs;
    forall v | v in Elems(p) ensures v in set t | t in tags :: Str(t) {
      var i :| 0 <= i < |p| && p[i] == v;
      assert v == Str(tags[i]);
    }
    forall t | t in tags ensures Str(t) in Elems(p) {
      var i :| 0 <= i < |tags| && tags[i] == t;
      assert p[i] == Str(t);
    }
  }

  /** Metadata without a `tags` key contributes nothing. */
  lemma MissingTagsContributeNothing(meta: Value)
    requires meta.Map? && TagsKey !in meta.entries
    ensures TagsContribution(meta) == {}
  {
  }

  /** A `tags` value that is neither a string nor a list (null, a number, a dict)
      contributes nothing. */
  lemma OtherTagValuesContributeNothing(meta: Value)
    requires meta.Map? && TagsKey in meta.entries
    requires !meta.entries[TagsKey].Str? && !meta.entries[TagsKey].List?
    ensures TagsContribution(meta) == {}
  {
  }

  /** Notes without a closed metadata block, and notes that cannot be read, add nothing. */
  lemma NotesWithoutBlockContributeNothing(yaml: Yaml, f: FileRead)
    requires f.Unreadable? || !SplitDocument(f.content).Block?
    ensures FileContribution(yaml, f) == {}
  {
  }

  /** A list holding a dict or a list adds only the elements before it, even though
      the note's processing then fails. */
  lemma UnhashableCutsListShort(a: String, b: String)
    ensures TagsContribution(Map(map[TagsKey := List([Str(a), EmptyMap, Str(b)])])) == {Str(a)}
  {
    var xs := [Str(a), EmptyMap, Str(b)];
    assert HashablePrefix(xs[2..]) == [Str(b)];
    assert HashablePrefix(xs[1..]) == [];
    assert HashablePrefix(xs) == [Str(a)];
  }
}

=== FILE: wrappers.dfy ===
/** Failure-carrying values used where the Python code raises or returns nothing. */
module Wrappers {

  /** An optional value: `None` stands for "absent" or for a foreign call that raised. */
  datatype Option<+T> = None | Some(value: T)

  /** The outcome of an operation that either succeeds with a value or fails with a reason. */
  datatype Result<+T, +E> = Ok(value: T) | Err(error: E)
}
